=== FILE: README.md ===
# StudySync dashboard: a verified model of its data-shaping rules

The StudySync dashboard is a browser page. It sends a user's subjects and
business commitments to two external AI agents, a study-plan coordinator and a
deadline/goals tracker, and displays what they send back. The page does not
plan or schedule anything itself. What it does compute is a small set of pure
rules, and this project models those rules in Dafny and proves their
properties:

- **Agent-response normaliser** (`parseAgentResponse`). It finds the payload
  in a loosely shaped agent reply. It looks in three places in a fixed order:
  `response.result`, then `response`, then `raw_response`. Text is read as
  JSON. For `response.result` only, text that is not JSON falls back to the
  span from its first `{` to its last `}`. Falsy values and empty containers
  at `response.result` move the search on; at `response` only a falsy value
  does. `JSON.parse` itself is an abstract function (`JsonHost`).
- **Plan/goals assembly**. The normalised payload becomes a `StudyPlan` or a
  `GoalsReport`. Array fields are kept only when they are arrays. Scalar
  fields default to `''`/`0` only when they are `null`/`undefined`. The
  surrounding handler logic is modelled too: a call that threw, a failed
  call, an unparsable reply, and the inert "no subjects" case.
- **Display rules**:
  - upper-cased urgency labels, with the badge colour and the stable
    deadline sort by urgency rank;
  - the `ProgressRing` and `DifficultyDots` clamps;
  - the subject palette;
  - the choice of which background schedule the settings screen manages.
- **Form-list edits**. Subjects and commitments can be added, removed and
  updated, keyed by `id`. The new entry's id is a parameter.

JavaScript values are the datatype `JsValue.Js`. Truthiness (`Truthy`),
`??` (`OrElse`), `Array.isArray` (`ArrayOrEmpty`) and optional-chained reads
(`Get`) are written out explicitly. Numbers are mathematical reals.

Modules: `Optional`, `JsValue`, `Search` (JavaScript's `findIndex`, `find`,
`indexOf` and `lastIndexOf`), `AgentResponse`, `ResponseExamples`, `Assembly`,
`FormLists`, `Urgency`, `Widgets`, `Schedules`. There is one `.dfy` file per
module.

Four behaviours of the normaliser and its callers in app/page.tsx are easy to misread, and
the model follows the code in each:

- A reply whose `response.result` is the text `'not json'` keeps that text,
  because it is truthy, so `raw_response` is never read
  (`ResponseExamples.ProseSuppressesRawResponse`).
- An empty `'{}'` result falls back to the whole `response` object, which
  holds `result` and so is always truthy
  (`ResponseExamples.EmptyResultYieldsResponseObject`). Only a `response`
  that is itself JSON text is parsed at that step
  (`ResponseExamples.ResponseText`).
- Normalising an output again gives it back only for usable values: truthy,
  non-empty and not text (or text that reads back as itself). A falsy or
  empty value comes back wrapped as `{result: v}`
  (`AgentResponse.RewrapFixpoint`).
- A successful reply whose `response.result` is prose with no readable JSON
  is kept as text. The plan and goals handlers then report success and apply
  an all-default plan or report (`Assembly.UnreadableProseIsApplied`). Their
  "could not parse" status is reached only when the normalised value is
  falsy, which cannot happen when `response` is an object
  (`Assembly.ObjectResponseNeverUnparsed`).

## Model

| member | source | states |
|---|---|---|
| `AgentResponse.ParseAgentResponse` | app/page.tsx:190-216 | `parseAgentResponse`. A usable step-1 value is the result. The result is always the step-1 value, the step-2 value or the parsed `raw_response`. An object `response` always gives a truthy result. `ResolutionOrder`, `RawResponseIsLastResort` and `RewrapFixpoint` state the rest. |
| `AgentResponse.BraceSpan` | app/page.tsx:197 | The `/\{[\s\S]*\}/` match. A match is at least two characters long, starts with `{` and ends with `}`. `BraceSpanFoundIffPair`, `BraceSpanIsLeftmostLongest` and `BraceSpanIsDetermined` pin down where it lies. |
| `AgentResponse.ReadPrimaryText` | app/page.tsx:193-201 | Step 1 on text. JSON text is parsed. Otherwise a brace span that parses gives its parse. Text whose span is missing or does not parse is kept. |
| `AgentResponse.Secondary` | app/page.tsx:204-207 | Step 2. JSON text at `response` is parsed. Text that does not parse is kept, and a `response` that is not text is taken as it is. |
| `AgentResponse.BraceSpanFoundIffPair` | app/page.tsx:197-198 | `/\{[\s\S]*\}/` matches exactly when some `{` has a `}` somewhere after it. |
| `AgentResponse.BraceSpanIsLeftmostLongest` | app/page.tsx:197 | The match begins at the first `{` of the text and ends at its last `}`. |
| `AgentResponse.BraceSpanIsDetermined` | app/page.tsx:197 | Converse: a `{` with none before it and a later `}` with none after it delimit exactly the matched span. |
| `AgentResponse.ObjectResponseIsTruthy` | app/page.tsx:203-211 | A reply whose `response` is an object always normalises to a truthy value. |
| `AgentResponse.ResolutionOrder` | app/page.tsx:190-216 | Priority order. A usable primary value wins. Otherwise a truthy `response` value wins, empty containers included. Otherwise the parsed `raw_response` wins when it is truthy and parses. Otherwise the falsy `response` value is the result. |
| `AgentResponse.RawResponseIsLastResort` | app/page.tsx:209-211 | Changing `raw_response` can change the result only when the primary value is falsy or empty and the `response` value is falsy. |
| `AgentResponse.UnparsableTextIsKept` | app/page.tsx:193-203 | Non-empty primary text whose parse and brace-span parse both fail is the result, whatever `response` and `raw_response` hold. |
| `AgentResponse.Primary` | app/page.tsx:192-202 | Step 1. A non-text `response.result` is taken as it is. JSON text is parsed. Non-JSON text with no brace span is kept as text. |
| `AgentResponse.UnusableSpanFallsBack` | app/page.tsx:192-207 | Non-JSON text at `response.result` whose brace span parses to an unusable value, as `'see {}'` does, gives way to the `response` object. |
| `AgentResponse.ResponseJsonTextIsParsed` | app/page.tsx:203-207 | When step 1 is unusable, JSON text at `response` is parsed, and a truthy parse is the result. |
| `AgentResponse.StructuredPrimaryWins` | app/page.tsx:192-203 | A truthy, non-empty, non-text `response.result` is returned unchanged. |
| `AgentResponse.EmbeddedJsonIsExtracted` | app/page.tsx:192-203 | When the text at `response.result` is not JSON but its brace span parses to a usable value, that value is the result, whatever else the reply carries. |
| `AgentResponse.WrappedResult` | app/page.tsx:192-208 | A reply with only `response.result` set yields the step-1 reading when usable, and otherwise the `{result: v}` object. |
| `AgentResponse.RewrapFixpoint` | app/page.tsx:190-216 | Feeding a value back as `response.result` returns it unchanged if and only if it is usable and, when it is text, step 1 reads it back as itself. |
| `AgentResponse.IdempotentOnStructuredOutput` | app/page.tsx:190-216 | Re-normalising a usable, non-text output returns that output. |
| `ResponseExamples.DirectJsonText` | app/page.tsx:192-195 | `'{"a":1}'` at `response.result` gives `{a: 1}`. |
| `ResponseExamples.ProseAroundObject` | app/page.tsx:196-199 | An object embedded in prose, with no `{` before it and no `}` after it, is cut out and returned. |
| `ResponseExamples.EmptyResultYieldsResponseObject` | app/page.tsx:203-204 | An empty-object result falls back to `response`, which here is the `{result: '{}'}` object itself. |
| `ResponseExamples.ResponseText` | app/page.tsx:204-207 | JSON text at `response` is parsed when there is no `response.result`. |
| `ResponseExamples.ProseSuppressesRawResponse` | app/page.tsx:197-211 | `'not json'` at `response.result` stays the result although `raw_response` holds JSON. |
| `ResponseExamples.NothingUsable` | app/page.tsx:209-212 | A reply with none of the fields normalises to a falsy value, the "no data" case. |
| `Assembly.AssemblePlan` | app/page.tsx:1503-1512 | No scalar field of an assembled plan is `null`/`undefined`. |
| `Assembly.AssembleGoals` | app/page.tsx:1546-1558 | No scalar field of an assembled goals report, nested progress included, is `null`/`undefined`. |
| `Assembly.PlanRoundTrip` | app/page.tsx:1503-1512 | Writing a plan out as JSON and assembling it again gives back the same plan. |
| `Assembly.GoalsRoundTrip` | app/page.tsx:1546-1558 | Writing a goals report out as JSON and assembling it again gives back the same report. |
| `Assembly.PlanAssemblyIdempotent` | app/page.tsx:1503-1512 | Assembling an assembled plan again changes nothing. |
| `Assembly.PrimitivePayloadGivesDefaults` | app/page.tsx:1503-1558 | A payload that is not an object, such as `true`, yields the all-default plan and report. |
| `Assembly.PlanFieldsKeptOrDefaulted` | app/page.tsx:1504-1510 | A present scalar is kept even when falsy (`0`, `''`). Only `null`/`undefined` become `''` or `0`. |
| `Assembly.GoalsFieldsKeptOrDefaulted` | app/page.tsx:1549-1556 | A present goals scalar, the three read through `goal_progress?.` included, is kept even when falsy. Only `null`/`undefined` become `0` or `''`. |
| `Assembly.PlanArraysKeptOrEmptied` | app/page.tsx:1506-1511 | Each of the three plan arrays is the payload's array when it is one. Any other value, present or missing, becomes `[]`. |
| `Assembly.GoalsArraysKeptOrEmptied` | app/page.tsx:1547-1557 | Each of the five report arrays, `goal_progress?.subjects_at_risk` included, is the payload's array when it is one, and `[]` otherwise. |
| `Assembly.HandleReply` | app/page.tsx:1499-1524 | Data is applied exactly when the call succeeded and the normalised payload is truthy, and it is the assembled payload. The "could not parse" case is exactly a falsy payload after a successful call. The failure case is exactly a reply with a falsy `success`, and it shows the service's `error` when that is truthy and the fixed fallback text otherwise. A rejected call or a `null` reply is the unexpected-error case. |
| `Assembly.GeneratePlan` | app/page.tsx:1479-1527 | No call is made exactly when there are no subjects. An applied plan is the assembly of the truthy normalised payload, and it has no `null`/`undefined` scalars. |
| `Assembly.CheckGoals` | app/page.tsx:1530-1572 | The goals check always reaches an outcome. An applied report is the assembly of the truthy normalised payload, and it has no `null`/`undefined` scalars. |
| `Assembly.UnreadableProseIsApplied` | app/page.tsx:1499-1516 | A successful reply whose `response.result` is prose with no readable JSON is reported as a success, and an all-default plan or report is applied. |
| `Assembly.ObjectResponseNeverUnparsed` | app/page.tsx:1500-1517 | When `response` is an object, the "could not parse" status is never reached. |
| `FormLists.RemoveById` | app/page.tsx:463-465 | An entry survives exactly when it was present and its id differs. |
| `FormLists.UpdateById` | app/page.tsx:466-468 | Length is kept. Entries with another id are unchanged. Matching entries are edited. |
| `FormLists.RemoveDistributes` | app/page.tsx:463-465 | Removal distributes over concatenation, so survivors keep their original order. |
| `FormLists.RemoveAbsentId` | app/page.tsx:472-474 | Removing an id no entry has leaves the list unchanged. |
| `FormLists.RemoveIdempotent` | app/page.tsx:463-465 | Removing the same id twice is the same as removing it once. |
| `FormLists.RemoveAfterUpdate` | app/page.tsx:463-476 | Removing an id discards any id-preserving edit made under it. |
| `FormLists.AddSubject` | app/page.tsx:460-462 | Appends exactly one entry after the unchanged list: the given id, empty name and deadline, difficulty 3. |
| `FormLists.RemoveSubject` | app/page.tsx:463-465 | The remaining subjects are exactly those present whose id differs. |
| `FormLists.UpdateSubject` | app/page.tsx:466-468 | Other ids are untouched. Matching subjects carry the new value in the named field and keep every other field. |
| `FormLists.RemoveUndoesAddSubject` | app/page.tsx:460-465 | Adding a subject under a fresh id and then removing that id restores the list. |
| `FormLists.AddCommitment` | app/page.tsx:469-471 | Appends exactly one entry after the unchanged list: the given id, empty name, not recurring, Morning. |
| `FormLists.RemoveCommitment` | app/page.tsx:472-474 | The remaining commitments are exactly those present whose id differs. |
| `FormLists.UpdateCommitment` | app/page.tsx:475-477 | Other ids are untouched. Matching commitments carry the new value in the named field and keep every other field. |
| `FormLists.RemoveUndoesAddCommitment` | app/page.tsx:469-474 | Adding a commitment under a fresh id and then removing that id restores the list. |
| `Urgency.ToUpper` | app/page.tsx:397 | `toUpperCase`. The result is empty exactly when the input is. `ToUpperAppend`, `ToUpperIdempotent` and `ToUpperHasNoLowerCase` state the rest. |
| `Urgency.ToUpperHasNoLowerCase` | app/page.tsx:397 | Upper-cased text holds no lower-case ASCII letter. |
| `Urgency.ToUpperIdempotent` | app/page.tsx:397 | Upper-casing an upper-cased label changes nothing. |
| `Urgency.BadgeLabel` | app/page.tsx:396-403 | The badge text is never empty. It is `N/A` when the label is missing or empty, and otherwise the upper-cased label. |
| `Urgency.UrgencyRank` | app/page.tsx:956-957 | Every label, including a missing one, gets a rank of at most 4. `BadgeAgreesWithRank`, `RelaxedRanksThird` and `UnknownLabelRanksLast` give the exact ranks. |
| `Urgency.BadgeTone` | app/page.tsx:396-402 | The badge is red, amber or yellow exactly when the upper-cased label is CRITICAL, URGENT or MODERATE. It is emerald exactly when the label is none of the three. |
| `Urgency.BadgeAgreesWithRank` | app/page.tsx:396-402 | The badge colour and the sort rank of lines 955-958 agree: red is rank 0, amber 1, yellow 2, and emerald is rank 3 or 4. |
| `Urgency.ClassificationIgnoresCase` | app/page.tsx:397 | Upper-casing a label first changes neither its rank nor its badge colour. |
| `Urgency.LowerCaseCritical` | app/page.tsx:397-399 | `critical` in lower case ranks 0 and gets the red badge. |
| `Urgency.UnknownLabelRanksLast` | app/page.tsx:956-957 | Any label whose upper case is outside the four-entry record ranks 4, as a missing label does. |
| `Urgency.RelaxedRanksThird` | app/page.tsx:956-957 | RELAXED, in any case, ranks 3, after the three urgent labels and ahead of every unknown one. |
| `Urgency.SortByUrgency` | app/page.tsx:955-958 | The sorted deadlines are a permutation of the input, with non-decreasing urgency rank. |
| `Urgency.SortIsStable` | app/page.tsx:955-958 | Deadlines of equal urgency keep their original relative order. |
| `Urgency.SortIsUrgencyGroups` | app/page.tsx:955-958 | The sort equals the reference ordering: the CRITICAL, URGENT, MODERATE, RELAXED and other groups, concatenated, each in input order. |
| `Widgets.ProgressPercent` | app/page.tsx:366 | Always within [0, 100]. Missing or `0` gives 0, values in range are kept, and values out of range go to the nearer bound. |
| `Widgets.ProgressPercentIdempotent` | app/page.tsx:366 | A shown percentage shows as itself. |
| `Widgets.SafeLevel` | app/page.tsx:386 | Always within [0, 5]. Missing or `0` gives 0, values in range are kept, and values out of range go to the nearer bound. |
| `Widgets.Dots` | app/page.tsx:389-390 | Exactly five dots, and dot `d` is filled iff `d <= safeLevel`. |
| `Widgets.FilledDotsMatchLevel` | app/page.tsx:386-391 | The number of filled dots is the safe level rounded down, and the filled dots come first. |
| `Widgets.SubjectColor` | app/page.tsx:185-188 | Always a palette entry. It is the entry at the subject's first position modulo 5, or entry 0 for an unknown subject. |
| `Widgets.PaletteEntriesDiffer` | app/page.tsx:65-71 | The five palette colours are pairwise different. |
| `Widgets.FirstFiveSubjectsDiffer` | app/page.tsx:185-188 | Among distinct subjects, the first five get five different colours. |
| `Schedules.TargetSchedule` | app/page.tsx:1181 | The result is null iff there are no schedules. Otherwise it is the first with the configured id, else the first running the goals tracker, else the first schedule. |
| `Schedules.IdBeatsAgent` | app/page.tsx:1181 | For any list, the chosen schedule carries the configured id exactly when some schedule does, whatever goals-tracker schedules stand before it. |

## Left out

- Rendering is not modelled: JSX, layout, class strings, React hooks and effects, and navigation between screens. None of it computes a value the model could state.
- `callAIAgent` and the scheduler client are parameters or are left out. The agent reply is a `CallReply` parameter. Listing, pausing, resuming and triggering schedules, reading their logs, and `cronToHuman` are remote calls whose bodies are not available.
- `JSON.parse` and `String(v)` are abstract (`JsonHost.parse`, `JsonHost.toText`). Their grammar and number formatting are not modelled.
- The outer `catch` returning `null` (lines 213-215) is not modelled. Every step of the model is total, as every step of the source is for plain data, so it never fires.
- The prompt texts sent to the agents (lines 1485-1497, 1535-1540) are free text for an external service.
- The days-to-deadline countdowns (lines 479-493, 1588-1600) depend on `Date` parsing, the clock and floating-point `Math.ceil`.
- The `ProgressRing` circumference and offset (lines 364-367) are floating-point geometry.
- `generateId` (lines 181-183) uses randomness. New ids are parameters instead.
- `renderMarkdown`/`formatInline` (lines 218-246) produce React elements, not stateable values.
- `ErrorBoundary`, the sample data, the sample-mode toggle, and the schedule toggle, trigger and refresh handlers are UI state and remote calls.
- Numbers are mathematical reals. NaN, `-0` and floating-point rounding are not represented.
- `Widgets.ProgressPercent`: takes a number or nothing. A non-number prop such as text, which JavaScript would coerce with `Number()`, is not modelled.
- `Widgets.SafeLevel`: takes a number or nothing, for the same reason as `Widgets.ProgressPercent`.
- `Urgency.SortByUrgency`: deadlines are typed records with an optional text urgency. A `null` element or a non-text urgency makes the source comparator throw, and that is not modelled. `Array.prototype.sort` is taken to be stable, as it is since ECMAScript 2019.
- `Urgency.ToUpper`: only ASCII letters and ten other characters are upper-cased. The ten are the dotless i, the long s, the sharp s and the ligatures U+FB00-U+FB06. Every other character is kept as it is, so `é` stays `é` where `toUpperCase` gives `É`. Those ten are exactly the non-ASCII characters whose upper case is made only of ASCII letters, so comparisons with CRITICAL, URGENT, MODERATE and RELAXED come out as in a browser.
- `Urgency.BadgeLabel`: upper-casing covers ASCII letters, the dotless i, the long s, the sharp s and the ligatures U+FB00-U+FB06. Other letters, such as `é`, are shown as they are rather than in capitals. Only the displayed text differs from a browser: no other character upper-cases to a string made only of ASCII letters, so the classification is unaffected.
- `FormLists.UpdateSubject`: the value must have the field's declared type. The source accepts `any`, but its only callers pass values of the declared types (lines 536-548).
- `FormLists.UpdateCommitment`: the value must have the field's declared type, as for subjects (callers at lines 580-590).
- `JsValue.Get` reads only named properties. Array indices, `length` and inherited prototype properties are never read by the modelled code.

=== FILE: agent_response.dfy ===
/** The agent-response normaliser `parseAgentResponse` (app/page.tsx:190-216).

    It looks for the payload in three places, in a fixed order:
      1. `result.response.result`; text there is read as JSON, and when that
         fails, the span from its first `{` to its last `}` is read as JSON;
         when both fail the text itself is kept;
      2. `result.response`, when the value so far is falsy or an empty
         array/object; text there is read as JSON or kept as it is;
      3. `result.raw_response`, when the value so far is still falsy and this
         field is truthy; it is read as JSON or the value so far is kept.
    Every parse failure is swallowed. Each step below is total, so the outer
    handler that would return `null` never fires in this model. */
module AgentResponse {
  import opened Optional
  import opened JsValue
  import Search

  /** The parts of the JavaScript runtime the normaliser calls into without
      their internals being modelled: `parse` is `JSON.parse` on text (`None`
      when it throws) and `toText` is `String(v)`, the coercion `JSON.parse`
      applies to an argument that is not already text. */
  datatype JsonHost = JsonHost(parse: string -> Option<Js>, toText: Js -> string)

  /** `JSON.parse(v)` for an arbitrary value `v`. */
  function ParseValue(host: JsonHost, v: Js): Option<Js> {
    host.parse(if v.Str? then v.s else host.toText(v))
  }

  /** No `{` precedes the first one. */
  lemma BeforeFirstOpen(s: string)
    ensures var i := Search.IndexOf(s, '{');
            forall k :: 0 <= k < |s| && (i < 0 || k < i) ==> s[k] != '{'
  {
    var i := Search.IndexOf(s, '{');
    if i >= 0 {
      assert forall k :: 0 <= k < i ==> s[k] == s[..i][k];
    }
  }

  /** No `}` follows the last one. */
  lemma AfterLastClose(s: string)
    ensures var j := Search.LastIndexOf(s, '}');
            forall k :: 0 <= k < |s| && j < k ==> s[k] != '}'
  {
    var j := Search.LastIndexOf(s, '}');
    if j >= 0 {
      assert forall k :: j < k < |s| ==> s[k] == s[j + 1..][k - j - 1];
    }
  }

  /** Some `{` is followed, somewhere later, by a `}`: the text matches
      `/\{[\s\S]*\}/` somewhere. */
  ghost predicate HasBracePair(s: string) {
    exists i, j :: 0 <= i < j < |s| && s[i] == '{' && s[j] == '}'
  }

  /** The match of `/\{[\s\S]*\}/` in `s` (line 197). */
  function BraceSpan(s: string): (r: Option<string>)
    ensures r.Some? ==> |r.value| >= 2 && r.value[0] == '{' && r.value[|r.value| - 1] == '}'
  {
    var i := Search.IndexOf(s, '{');
    var j := Search.LastIndexOf(s, '}');
    if 0 <= i < j then Some(s[i..j + 1]) else None
  }

  /** The regex finds a match exactly when some `{` has a `}` after it. */
  lemma BraceSpanFoundIffPair(s: string)
    ensures BraceSpan(s).Some? <==> HasBracePair(s)
  {
    BeforeFirstOpen(s);
    AfterLastClose(s);
  }

  /** The match is leftmost-longest: it starts at the first `{` that has a
      `}` after it, which is the first `{` of all, and the greedy middle
      stretches it to the last `}`. */
  lemma BraceSpanIsLeftmostLongest(s: string)
    requires BraceSpan(s).Some?
    ensures exists i, j :: 0 <= i < j < |s| && s[i] == '{' && s[j] == '}'
                           && BraceSpan(s).value == s[i..j + 1]
                           && '{' !in s[..i] && '}' !in s[j + 1..]
  {
    var i := Search.IndexOf(s, '{');
    var j := Search.LastIndexOf(s, '}');
    assert BraceSpan(s).value == s[i..j + 1];
  }

  /** Conversely, a `{` with no `{` before it and a later `}` with no `}` after
      it delimit exactly the span the regex picks. */
  lemma BraceSpanIsDetermined(s: string, i: nat, j: nat)
    requires i < j < |s| && s[i] == '{' && s[j] == '}'
    requires '{' !in s[..i] && '}' !in s[j + 1..]
    ensures BraceSpan(s) == Some(s[i..j + 1])
  {
    var a := Search.IndexOf(s, '{');
    var b := Search.LastIndexOf(s, '}');
    BeforeFirstOpen(s);
    AfterLastClose(s);
    assert s[i] == '{';
    assert forall k :: 0 <= k < i ==> s[k] == s[..i][k];
    assert forall k :: j < k < |s| ==> s[k] == s[j + 1..][k - j - 1];
    assert a == i;
    assert b == j;
  }

  /** Step 1's reading of text found at `response.result` (lines 193-201). */
  function ReadPrimaryText(host: JsonHost, s: string): (r: Js)
    ensures host.parse(s).Some? ==> r == host.parse(s).value
    ensures host.parse(s).None? && BraceSpan(s).None? ==> r == Str(s)
    ensures host.parse(s).None? && BraceSpan(s).Some? && host.parse(BraceSpan(s).value).Some?
            ==> r == host.parse(BraceSpan(s).value).value
    ensures host.parse(s).None? && BraceSpan(s).Some? && host.parse(BraceSpan(s).value).None?
            ==> r == Str(s)
    ensures || r == Str(s)
            || host.parse(s) == Some(r)
            || (BraceSpan(s).Some? && host.parse(BraceSpan(s).value) == Some(r))
  {
    match host.parse(s)
    case Some(v) => v
    case None =>
      match BraceSpan(s)
      case Some(t) => host.parse(t).GetOr(Str(s))
      case None => Str(s)
  }

  /** The value after step 1 (lines 192-202). */
  function Primary(host: JsonHost, result: Js): (r: Js)
    ensures var d := Get(Get(result, "response"), "result");
            !d.Str? ==> r == d
    ensures var d := Get(Get(result, "response"), "result");
            d.Str? && host.parse(d.s).Some? ==> r == host.parse(d.s).value
    ensures var d := Get(Get(result, "response"), "result");
            d.Str? && host.parse(d.s).None? && BraceSpan(d.s).None? ==> r == d
  {
    var d := Get(Get(result, "response"), "result");
    if d.Str? then ReadPrimaryText(host, d.s) else d
  }

  /** The test on line 203: falsy, or an array/object with no keys. */
  predicate Unusable(d: Js) {
    !Truthy(d) || EmptyContainer(d)
  }

  /** The value step 2 would take (lines 204-207). */
  function Secondary(host: JsonHost, result: Js): (r: Js)
    ensures var d := Get(result, "response");
            r == d || (d.Str? && host.parse(d.s) == Some(r))
    ensures var d := Get(result, "response");
            d.Str? && host.parse(d.s).Some? ==> r == host.parse(d.s).value
    ensures !Get(result, "response").Str? ==> r == Get(result, "response")
  {
    var d := Get(result, "response");
    if d.Str? then host.parse(d.s).GetOr(d) else d
  }

  /** `parseAgentResponse(result)`. */
  function ParseAgentResponse(host: JsonHost, result: Js): (r: Js)
    ensures !Unusable(Primary(host, result)) ==> r == Primary(host, result)
    ensures || r == Primary(host, result)
            || r == Secondary(host, result)
            || ParseValue(host, Get(result, "raw_response")) == Some(r)
    ensures Get(result, "response").Obj? ==> Truthy(r)
  {
    var d1 := Primary(host, result);
    var d2 := if Unusable(d1) then Secondary(host, result) else d1;
    var raw := Get(result, "raw_response");
    if !Truthy(d2) && Truthy(raw) then ParseValue(host, raw).GetOr(d2) else d2
  }

  /** The three locations are tried in order and the first acceptable value
      wins: a usable primary value; otherwise a truthy secondary value (empty
      containers are accepted here); otherwise the parsed raw text when it is
      truthy and parses; otherwise the falsy secondary value. */
  lemma ResolutionOrder(host: JsonHost, result: Js)
    ensures var p := Primary(host, result);
            var s := Secondary(host, result);
            var raw := Get(result, "raw_response");
            var r := ParseAgentResponse(host, result);
            && (!Unusable(p) ==> r == p)
            && (Unusable(p) && Truthy(s) ==> r == s)
            && ((Unusable(p) && !Truthy(s) && Truthy(raw) && ParseValue(host, raw).Some?)
                ==> r == ParseValue(host, raw).value)
            && (Unusable(p) && !Truthy(s) && (!Truthy(raw) || ParseValue(host, raw).None?) ==> r == s)
  {
    var p := Primary(host, result);
    if !Unusable(p) {
      assert Truthy(p);
    }
  }

  /** `raw_response` influences the outcome only when both earlier locations
      came up falsy-or-empty and falsy: replacing it by anything else leaves
      every other reply's result unchanged. */
  lemma RawResponseIsLastResort(host: JsonHost, fields: map<string, Js>, other: Js)
    requires ParseAgentResponse(host, Obj(fields)) != ParseAgentResponse(host, Obj(fields["raw_response" := other]))
    ensures Unusable(Primary(host, Obj(fields)))
    ensures !Truthy(Secondary(host, Obj(fields)))
  {
    var a := Obj(fields);
    var b := Obj(fields["raw_response" := other]);
    assert Get(Get(a, "response"), "result") == Get(Get(b, "response"), "result");
    assert Get(a, "response") == Get(b, "response");
    assert Primary(host, a) == Primary(host, b);
    assert Secondary(host, a) == Secondary(host, b);
    ResolutionOrder(host, a);
    ResolutionOrder(host, b);
  }

  /** Non-empty primary text that is not JSON and whose brace span (if any) is
      not JSON either is kept as the result: being truthy, it stops both
      fall-backs, whatever `response` and `raw_response` hold. */
  lemma UnparsableTextIsKept(host: JsonHost, result: Js)
    requires Get(Get(result, "response"), "result").Str?
    requires var s := Get(Get(result, "response"), "result").s;
             && s != ""
             && host.parse(s).None?
             && (BraceSpan(s).None? || host.parse(BraceSpan(s).value).None?)
    ensures ParseAgentResponse(host, result) == Get(Get(result, "response"), "result")
  {
  }

  /** Prose around a JSON object at `response.result`: the object is cut out
      of the text and, when usable, becomes the result, whatever else the
      reply carries. */
  lemma EmbeddedJsonIsExtracted(host: JsonHost, result: Js, s: string, v: Js)
    requires Get(Get(result, "response"), "result") == Str(s)
    requires host.parse(s).None?
    requires BraceSpan(s).Some? && host.parse(BraceSpan(s).value) == Some(v)
    requires !Unusable(v)
    ensures ParseAgentResponse(host, result) == v
  {
    assert ReadPrimaryText(host, s) == v;
    assert Primary(host, result) == v;
  }

  /** Text at `response.result` that is not JSON, but whose brace span parses
      to an unusable value (as `'see {}'` does), gives way to the `response`
      object, which holds `result` and so is truthy. */
  lemma UnusableSpanFallsBack(host: JsonHost, result: Js, s: string, v: Js)
    requires Get(Get(result, "response"), "result") == Str(s)
    requires host.parse(s).None?
    requires BraceSpan(s).Some? && host.parse(BraceSpan(s).value) == Some(v)
    requires Unusable(v)
    ensures ParseAgentResponse(host, result) == Get(result, "response")
  {
    assert Primary(host, result) == v;
    assert Get(result, "response").Obj?;
  }

  /** JSON text at `response` is parsed when `response.result` is unusable,
      and a truthy parse is the result. */
  lemma ResponseJsonTextIsParsed(host: JsonHost, result: Js, t: string, v: Js)
    requires Unusable(Primary(host, result))
    requires Get(result, "response") == Str(t)
    requires host.parse(t) == Some(v) && Truthy(v)
    ensures ParseAgentResponse(host, result) == v
  {
    assert Secondary(host, result) == v;
  }

  /** A structured primary value (not text) is returned untouched when it is
      truthy and not an empty container. */
  lemma StructuredPrimaryWins(host: JsonHost, result: Js)
    requires !Get(Get(result, "response"), "result").Str?
    requires !Unusable(Get(Get(result, "response"), "result"))
    ensures ParseAgentResponse(host, result) == Get(Get(result, "response"), "result")
  {
  }

  /** A reply whose `response` is an object always normalises to something
      truthy: when `response.result` is unusable, step 2 returns the
      `response` object itself. */
  lemma ObjectResponseIsTruthy(host: JsonHost, result: Js)
    requires Get(result, "response").Obj?
    ensures Truthy(ParseAgentResponse(host, result))
  {
    if Unusable(Primary(host, result)) {
      assert Secondary(host, result) == Get(result, "response");
    }
  }

  /** The reply `{ response: { result: v } }`. */
  function WrapAsResult(v: Js): Js {
    Single("response", Single("result", v))
  }

  /** A reply carrying only `response.result` resolves to that value (text
      read as in step 1) when usable, and otherwise to the `response` object
      itself, since an object is always truthy. */
  lemma WrappedResult(host: JsonHost, v: Js)
    ensures var p := if v.Str? then ReadPrimaryText(host, v.s) else v;
            ParseAgentResponse(host, WrapAsResult(v)) == if Unusable(p) then Single("result", v) else p
  {
    var w := WrapAsResult(v);
    assert Get(Get(w, "response"), "result") == v;
    assert Get(w, "raw_response") == Undefined;
    assert Get(w, "response") == Single("result", v);
  }

  /** Feeding the normaliser's own output back as `response.result` gives the
      same value exactly when that value is usable and, if it is text, text
      that step 1 reads back as itself. A falsy or empty value is not a
      fixpoint: the fall-back then returns the `{ result: v }` wrapper. */
  lemma RewrapFixpoint(host: JsonHost, v: Js)
    ensures ParseAgentResponse(host, WrapAsResult(v)) == v
            <==> !Unusable(v) && (v.Str? ==> ReadPrimaryText(host, v.s) == v)
  {
    WrappedResult(host, v);
    OwnPropertyIsSmaller("result", v);
  }

  /** Idempotence on already-structured output: re-normalising a usable
      non-text result given as `response.result` returns it unchanged. */
  lemma IdempotentOnStructuredOutput(host: JsonHost, result: Js)
    requires var v := ParseAgentResponse(host, result); !Unusable(v) && !v.Str?
    ensures var v := ParseAgentResponse(host, result);
            ParseAgentResponse(host, WrapAsResult(v)) == v
  {
    RewrapFixpoint(host, ParseAgentResponse(host, result));
  }
}

=== FILE: assembly.dfy ===
/** Plan and goals assembly (app/page.tsx:1499-1521 and 1542-1566): the
    normalised payload is mapped onto `StudyPlanData` / `GoalsData`. Every array
    field is kept only when it really is an array (`Array.isArray`), and every
    scalar field falls back to `''` or `0` only when it is `null`/`undefined`
    (`??`). Field contents are not checked further, so fields keep the type
    `Js`: the source trusts the agent here. */
module Assembly {
  import opened Optional
  import opened JsValue
  import opened AgentResponse
  import FormLists

  datatype StudyPlan = StudyPlan(
    weekStart: Js,
    weekEnd: Js,
    studyBlocks: seq<Js>,
    totalStudyHours: Js,
    subjectsCovered: seq<Js>,
    balanceScore: Js,
    planSummary: Js,
    recommendations: seq<Js>)

  datatype GoalProgress = GoalProgress(
    overallAcademicProgress: Js,
    weeklyCompletionRate: Js,
    balanceScore: Js,
    subjectsAtRisk: seq<Js>)

  datatype GoalsReport = GoalsReport(
    upcomingDeadlines: seq<Js>,
    goalProgress: GoalProgress,
    reminders: seq<Js>,
    insights: seq<Js>,
    balanceAnalysis: Js,
    recommendations: seq<Js>)

  /** No scalar field of the plan is `null` or `undefined`. */
  predicate PlanIsDefaulted(p: StudyPlan) {
    && !Nullish(p.weekStart) && !Nullish(p.weekEnd) && !Nullish(p.totalStudyHours)
    && !Nullish(p.balanceScore) && !Nullish(p.planSummary)
  }

  /** No scalar field of the report is `null` or `undefined`. */
  predicate GoalsAreDefaulted(g: GoalsReport) {
    && !Nullish(g.goalProgress.overallAcademicProgress)
    && !Nullish(g.goalProgress.weeklyCompletionRate)
    && !Nullish(g.goalProgress.balanceScore)
    && !Nullish(g.balanceAnalysis)
  }

  /** The `planData` literal of lines 1503-1512. */
  function AssemblePlan(d: Js): (p: StudyPlan)
    ensures PlanIsDefaulted(p)
  {
    StudyPlan(
      weekStart := OrElse(Get(d, "week_start"), Str("")),
      weekEnd := OrElse(Get(d, "week_end"), Str("")),
      studyBlocks := ArrayOrEmpty(Get(d, "study_blocks")),
      totalStudyHours := OrElse(Get(d, "total_study_hours"), Num(0.0)),
      subjectsCovered := ArrayOrEmpty(Get(d, "subjects_covered")),
      balanceScore := OrElse(Get(d, "balance_score"), Num(0.0)),
      planSummary := OrElse(Get(d, "plan_summary"), Str("")),
      recommendations := ArrayOrEmpty(Get(d, "recommendations")))
  }

  /** The `goalsResult` literal of lines 1546-1558. */
  function AssembleGoals(d: Js): (g: GoalsReport)
    ensures GoalsAreDefaulted(g)
  {
    var progress := Get(d, "goal_progress");
    GoalsReport(
      upcomingDeadlines := ArrayOrEmpty(Get(d, "upcoming_deadlines")),
      goalProgress := GoalProgress(
        overallAcademicProgress := OrElse(Get(progress, "overall_academic_progress"), Num(0.0)),
        weeklyCompletionRate := OrElse(Get(progress, "weekly_completion_rate"), Num(0.0)),
        balanceScore := OrElse(Get(progress, "balance_score"), Num(0.0)),
        subjectsAtRisk := ArrayOrEmpty(Get(progress, "subjects_at_risk"))),
      reminders := ArrayOrEmpty(Get(d, "reminders")),
      insights := ArrayOrEmpty(Get(d, "insights")),
      balanceAnalysis := OrElse(Get(d, "balance_analysis"), Str("")),
      recommendations := ArrayOrEmpty(Get(d, "recommendations")))
  }

  /** The plan every field of which is a default. */
  function EmptyPlan(): StudyPlan {
    StudyPlan(Str(""), Str(""), [], Num(0.0), [], Num(0.0), Str(""), [])
  }

  /** The report every field of which is a default. */
  function EmptyGoals(): GoalsReport {
    GoalsReport([], GoalProgress(Num(0.0), Num(0.0), Num(0.0), []), [], [], Str(""), [])
  }

  /** A plan written back out as the JSON object an agent would send. */
  function PlanToJs(p: StudyPlan): Js {
    Obj(map[
      "week_start" := p.weekStart,
      "week_end" := p.weekEnd,
      "study_blocks" := Arr(p.studyBlocks),
      "total_study_hours" := p.totalStudyHours,
      "subjects_covered" := Arr(p.subjectsCovered),
      "balance_score" := p.balanceScore,
      "plan_summary" := p.planSummary,
      "recommendations" := Arr(p.recommendations)])
  }

  /** A report written back out as the JSON object an agent would send. */
  function GoalsToJs(g: GoalsReport): Js {
    Obj(map[
      "upcoming_deadlines" := Arr(g.upcomingDeadlines),
      "goal_progress" := Obj(map[
        "overall_academic_progress" := g.goalProgress.overallAcademicProgress,
        "weekly_completion_rate" := g.goalProgress.weeklyCompletionRate,
        "balance_score" := g.goalProgress.balanceScore,
        "subjects_at_risk" := Arr(g.goalProgress.subjectsAtRisk)]),
      "reminders" := Arr(g.reminders),
      "insights" := Arr(g.insights),
      "balance_analysis" := g.balanceAnalysis,
      "recommendations" := Arr(g.recommendations)])
  }

  /** Assembly reads back exactly what was written: nothing is lost or
      altered for a plan whose scalars are all present. */
  lemma PlanRoundTrip(p: StudyPlan)
    requires PlanIsDefaulted(p)
    ensures AssemblePlan(PlanToJs(p)) == p
  {
  }

  /** Assembly reads back exactly what was written, for reports too. */
  lemma GoalsRoundTrip(g: GoalsReport)
    requires GoalsAreDefaulted(g)
    ensures AssembleGoals(GoalsToJs(g)) == g
  {
    var progress := Get(GoalsToJs(g), "goal_progress");
    assert Get(progress, "subjects_at_risk") == Arr(g.goalProgress.subjectsAtRisk);
  }

  /** Assembling an already assembled plan changes nothing. */
  lemma PlanAssemblyIdempotent(d: Js)
    ensures AssemblePlan(PlanToJs(AssemblePlan(d))) == AssemblePlan(d)
  {
    PlanRoundTrip(AssemblePlan(d));
  }

  /** A payload that is not an object (`true`, a number, text, an array)
      owns none of the named fields, so every field takes its default. */
  lemma PrimitivePayloadGivesDefaults(d: Js)
    requires !d.Obj?
    ensures AssemblePlan(d) == EmptyPlan()
    ensures AssembleGoals(d) == EmptyGoals()
  {
  }

  /** Field by field: a present scalar is kept as it is, even when it is
      falsy (`0`, `''`, `false`), and only a `null`/`undefined` one takes its
      default. */
  lemma PlanFieldsKeptOrDefaulted(d: Js, key: string)
    requires key in {"week_start", "week_end", "plan_summary", "total_study_hours", "balance_score"}
    ensures var p := AssemblePlan(d);
            var v := Get(d, key);
            var kept := match key
              case "week_start" => p.weekStart
              case "week_end" => p.weekEnd
              case "plan_summary" => p.planSummary
              case "total_study_hours" => p.totalStudyHours
              case _ => p.balanceScore;
            (!Nullish(v) ==> kept == v)
            && (Nullish(v) ==> kept == (if key in {"week_start", "week_end", "plan_summary"} then Str("") else Num(0.0)))
  {
  }

  /** The `Array.isArray` guards of the plan: an array field is the payload's
      array itself, and any other value, present or not, becomes `[]`. */
  lemma PlanArraysKeptOrEmptied(d: Js, key: string)
    requires key in {"study_blocks", "subjects_covered", "recommendations"}
    ensures var p := AssemblePlan(d);
            var v := Get(d, key);
            var field := match key
              case "study_blocks" => p.studyBlocks
              case "subjects_covered" => p.subjectsCovered
              case _ => p.recommendations;
            (v.Arr? ==> field == v.items) && (!v.Arr? ==> field == [])
  {
  }

  /** The goals counterpart: a present scalar is kept as it is, even when
      falsy, and a `null`/`undefined` one becomes `0` (the three numbers read
      through `goal_progress?.`) or `''` (`balance_analysis`). A payload whose
      `goal_progress` is missing or not an object gives `0` for all three. */
  lemma GoalsFieldsKeptOrDefaulted(d: Js, key: string)
    requires key in {"overall_academic_progress", "weekly_completion_rate", "balance_score", "balance_analysis"}
    ensures var g := AssembleGoals(d);
            var v := if key == "balance_analysis" then Get(d, key) else Get(Get(d, "goal_progress"), key);
            var kept := match key
              case "overall_academic_progress" => g.goalProgress.overallAcademicProgress
              case "weekly_completion_rate" => g.goalProgress.weeklyCompletionRate
              case "balance_score" => g.goalProgress.balanceScore
              case _ => g.balanceAnalysis;
            (!Nullish(v) ==> kept == v)
            && (Nullish(v) ==> kept == (if key == "balance_analysis" then Str("") else Num(0.0)))
  {
  }

  /** The `Array.isArray` guards of the report, `subjects_at_risk` read
      through `goal_progress?.`: an array is kept, anything else becomes `[]`. */
  lemma GoalsArraysKeptOrEmptied(d: Js, key: string)
    requires key in {"upcoming_deadlines", "subjects_at_risk", "reminders", "insights", "recommendations"}
    ensures var g := AssembleGoals(d);
            var v := if key == "subjects_at_risk" then Get(Get(d, "goal_progress"), key) else Get(d, key);
            var field := match key
              case "upcoming_deadlines" => g.upcomingDeadlines
              case "subjects_at_risk" => g.goalProgress.subjectsAtRisk
              case "reminders" => g.reminders
              case "insights" => g.insights
              case _ => g.recommendations;
            (v.Arr? ==> field == v.items) && (!v.Arr? ==> field == [])
  {
  }

  /** What a call to an agent came back with: a resolved reply, or a
      rejection (`callAIAgent` threw). */
  datatype CallReply = Resolved(reply: Js) | Rejected

  /** What the handler leaves behind: the assembled data, the "could not
      parse" status, the failure status carrying the service's message, the
      generic "unexpected error" status, or nothing at all when no call was
      made. */
  datatype Outcome<T> = NotRequested | Applied(data: T) | Unparsed | CallFailed(message: Js) | Unexpected

  /** The shared body of `handleGeneratePlan`/`handleCheckGoals` after the
      call: reading `success` off `null`/`undefined` throws, a falsy
      `success` reports `error || fallback`, and a falsy normalised payload
      reports that the reply could not be parsed. */
  function HandleReply<T>(host: JsonHost, call: CallReply, assemble: Js -> T, fallback: string): (r: Outcome<T>)
    requires fallback != ""
    ensures r.Applied? <==>
              call.Resolved? && Truthy(Get(call.reply, "success"))
              && Truthy(ParseAgentResponse(host, call.reply))
    ensures r.Applied? ==> r.data == assemble(ParseAgentResponse(host, call.reply))
    ensures r.Unparsed? <==>
              call.Resolved? && Truthy(Get(call.reply, "success"))
              && !Truthy(ParseAgentResponse(host, call.reply))
    ensures r.CallFailed? <==>
              call.Resolved? && !Nullish(call.reply) && !Truthy(Get(call.reply, "success"))
    ensures r.CallFailed? ==>
              call.Resolved?
              && r.message == (if Truthy(Get(call.reply, "error")) then Get(call.reply, "error") else Str(fallback))
    ensures r.CallFailed? ==> Truthy(r.message)
    ensures r.Unexpected? <==> call.Rejected? || Nullish(call.reply)
    ensures !r.NotRequested?
  {
    match call
    case Rejected => Unexpected
    case Resolved(res) =>
      if Nullish(res) then Unexpected
      else if !Truthy(Get(res, "success")) then
        var e := Get(res, "error");
        CallFailed(if Truthy(e) then e else Str(fallback))
      else
        var d := ParseAgentResponse(host, res);
        if Truthy(d) then Applied(assemble(d)) else Unparsed
  }

  /** `handleGeneratePlan`: inert without subjects (line 1480). */
  function GeneratePlan(host: JsonHost, subjects: seq<FormLists.Subject>, call: CallReply): (r: Outcome<StudyPlan>)
    ensures |subjects| == 0 <==> r.NotRequested?
    ensures r.Applied? ==> PlanIsDefaulted(r.data)
    ensures r.Applied? ==> call.Resolved? && r.data == AssemblePlan(ParseAgentResponse(host, call.reply))
    ensures r.Applied? ==> call.Resolved? && Truthy(ParseAgentResponse(host, call.reply))
  {
    if |subjects| == 0 then NotRequested
    else HandleReply(host, call, AssemblePlan, "Failed to generate study plan.")
  }

  /** `handleCheckGoals`. */
  function CheckGoals(host: JsonHost, call: CallReply): (r: Outcome<GoalsReport>)
    ensures !r.NotRequested?
    ensures r.Applied? ==> GoalsAreDefaulted(r.data)
    ensures r.Applied? ==> call.Resolved? && r.data == AssembleGoals(ParseAgentResponse(host, call.reply))
    ensures r.Applied? ==> call.Resolved? && Truthy(ParseAgentResponse(host, call.reply))
  {
    HandleReply(host, call, AssembleGoals, "Failed to check goals.")
  }

  /** A successful reply whose `response.result` is prose with no readable
      JSON is kept as text by the normaliser. Text is truthy and owns none of
      the read fields, so the handlers report success and apply an all-default
      plan or report: the "could not parse" status is not reached. */
  lemma UnreadableProseIsApplied(host: JsonHost, subjects: seq<FormLists.Subject>, reply: Js, s: string)
    requires |subjects| > 0
    requires Truthy(Get(reply, "success"))
    requires Get(Get(reply, "response"), "result") == Str(s)
    requires s != "" && host.parse(s).None?
    requires BraceSpan(s).None? || host.parse(BraceSpan(s).value).None?
    ensures GeneratePlan(host, subjects, Resolved(reply)) == Applied(EmptyPlan())
    ensures CheckGoals(host, Resolved(reply)) == Applied(EmptyGoals())
  {
    UnparsableTextIsKept(host, reply);
    PrimitivePayloadGivesDefaults(Str(s));
  }

  /** A reply whose `response` is an object can never end in the "could not
      parse" status. */
  lemma ObjectResponseNeverUnparsed<T>(host: JsonHost, reply: Js, assemble: Js -> T, fallback: string)
    requires fallback != ""
    requires Get(reply, "response").Obj?
    ensures !HandleReply(host, Resolved(reply), assemble, fallback).Unparsed?
  {
    ObjectResponseIsTruthy(host, reply);
  }
}

=== FILE: form_lists.dfy ===
/** The subject and commitment lists edited on the dashboard form
    (app/page.tsx:460-477). Both are keyed by `id`; the new entry's id, which
    the source draws at random, is a parameter here. */
module FormLists {

  datatype Subject = Subject(id: string, name: string, difficulty: real, deadline: string)

  datatype TimeBlock = Morning | Afternoon | Evening

  datatype Commitment = Commitment(id: string, name: string, recurring: bool, timeBlock: TimeBlock)

  /** `{ ...s, [field]: value }` for each key of `Subject`, with a value of
      that key's declared type. */
  datatype SubjectEdit =
    | SubjectId(newId: string)
    | SubjectName(newName: string)
    | SubjectDifficulty(newDifficulty: real)
    | SubjectDeadline(newDeadline: string)

  /** `{ ...c, [field]: value }` for each key of `Commitment`. */
  datatype CommitmentEdit =
    | CommitmentId(newId: string)
    | CommitmentName(newName: string)
    | CommitmentRecurring(newRecurring: bool)
    | CommitmentTimeBlock(newTimeBlock: TimeBlock)

  function IdOfSubject(s: Subject): string { s.id }

  function IdOfCommitment(c: Commitment): string { c.id }

  // ---------------------------------------------------------------------------
  // Edits keyed by id, for any entry type
  // ---------------------------------------------------------------------------

  /** `xs.filter(x => x.id !== id)`. */
  function RemoveById<T(==,!new)>(xs: seq<T>, id: string, idOf: T -> string): (r: seq<T>)
    ensures forall x :: x in r <==> x in xs && idOf(x) != id
    ensures |r| <= |xs|
  {
    if |xs| == 0 then []
    else
      var rest := RemoveById(xs[1..], id, idOf);
      assert forall x :: x in xs <==> x == xs[0] || x in xs[1..];
      if idOf(xs[0]) == id then rest else [xs[0]] + rest
  }

  /** `xs.map(x => x.id === id ? edit(x) : x)`. */
  function UpdateById<T>(xs: seq<T>, id: string, idOf: T -> string, edit: T -> T): (r: seq<T>)
    ensures |r| == |xs|
    ensures forall i :: 0 <= i < |xs| && idOf(xs[i]) != id ==> r[i] == xs[i]
    ensures forall i :: 0 <= i < |xs| && idOf(xs[i]) == id ==> r[i] == edit(xs[i])
  {
    seq(|xs|, i requires 0 <= i < |xs| => if idOf(xs[i]) == id then edit(xs[i]) else xs[i])
  }

  /** Removal keeps the survivors in their original order: it distributes
      over concatenation, so it acts on each entry independently. */
  lemma {:induction false} RemoveDistributes<T(!new)>(a: seq<T>, b: seq<T>, id: string, idOf: T -> string)
    ensures RemoveById(a + b, id, idOf) == RemoveById(a, id, idOf) + RemoveById(b, id, idOf)
  {
    if |a| > 0 {
      assert (a + b)[1..] == a[1..] + b;
      RemoveDistributes(a[1..], b, id, idOf);
    } else {
      assert a + b == b;
    }
  }

  /** Removing an id nobody has changes nothing. */
  lemma {:induction false} RemoveAbsentId<T(!new)>(xs: seq<T>, id: string, idOf: T -> string)
    requires forall i :: 0 <= i < |xs| ==> idOf(xs[i]) != id
    ensures RemoveById(xs, id, idOf) == xs
  {
    if |xs| > 0 {
      RemoveAbsentId(xs[1..], id, idOf);
      assert xs == [xs[0]] + xs[1..];
    }
  }

  /** Removing twice is removing once. */
  lemma RemoveIdempotent<T(!new)>(xs: seq<T>, id: string, idOf: T -> string)
    ensures RemoveById(RemoveById(xs, id, idOf), id, idOf) == RemoveById(xs, id, idOf)
  {
    var r := RemoveById(xs, id, idOf);
    forall i | 0 <= i < |r| ensures idOf(r[i]) != id {
      assert r[i] in r;
    }
    RemoveAbsentId(r, id, idOf);
  }

  /** Removing an id discards any edit made under that id, provided the edit
      keeps the id. */
  lemma {:induction false} RemoveAfterUpdate<T(!new)>(xs: seq<T>, id: string, idOf: T -> string, edit: T -> T)
    requires forall x :: idOf(edit(x)) == idOf(x)
    ensures RemoveById(UpdateById(xs, id, idOf, edit), id, idOf) == RemoveById(xs, id, idOf)
  {
    if |xs| > 0 {
      var u := UpdateById(xs, id, idOf, edit);
      assert u[1..] == UpdateById(xs[1..], id, idOf, edit);
      RemoveAfterUpdate(xs[1..], id, idOf, edit);
    }
  }

  // ---------------------------------------------------------------------------
  // Subjects
  // ---------------------------------------------------------------------------

  /** The entry `addSubject` appends (line 461). */
  function NewSubject(id: string): Subject {
    Subject(id, "", 3.0, "")
  }

  /** `addSubject`: appends exactly one default entry. */
  function AddSubject(xs: seq<Subject>, newId: string): (r: seq<Subject>)
    ensures |r| == |xs| + 1 && r[..|xs|] == xs
    ensures r[|xs|].id == newId && r[|xs|].name == "" && r[|xs|].deadline == ""
    ensures r[|xs|].difficulty == 3.0
  {
    xs + [NewSubject(newId)]
  }

  /** `removeSubject`. */
  function RemoveSubject(xs: seq<Subject>, id: string): (r: seq<Subject>)
    ensures forall s :: s in r <==> s in xs && s.id != id
  {
    RemoveById(xs, id, IdOfSubject)
  }

  /** The edit applied to one subject. */
  function ApplySubjectEdit(s: Subject, e: SubjectEdit): Subject {
    match e
    case SubjectId(v) => s.(id := v)
    case SubjectName(v) => s.(name := v)
    case SubjectDifficulty(v) => s.(difficulty := v)
    case SubjectDeadline(v) => s.(deadline := v)
  }

  /** `a` carries the value `e` writes, in the field `e` names. */
  predicate SubjectHasEdit(a: Subject, e: SubjectEdit) {
    match e
    case SubjectId(v) => a.id == v
    case SubjectName(v) => a.name == v
    case SubjectDifficulty(v) => a.difficulty == v
    case SubjectDeadline(v) => a.deadline == v
  }

  /** `a` and `b` agree on every field `e` does not name. */
  predicate SubjectsAgreeElsewhere(a: Subject, b: Subject, e: SubjectEdit) {
    && (e.SubjectId? || a.id == b.id)
    && (e.SubjectName? || a.name == b.name)
    && (e.SubjectDifficulty? || a.difficulty == b.difficulty)
    && (e.SubjectDeadline? || a.deadline == b.deadline)
  }

  /** `updateSubject(id, field, value)`: entries with another id are
      untouched; matching entries get the new value in the named field and
      keep every other field. */
  function UpdateSubject(xs: seq<Subject>, id: string, e: SubjectEdit): (r: seq<Subject>)
    ensures |r| == |xs|
    ensures forall i :: 0 <= i < |xs| && xs[i].id != id ==> r[i] == xs[i]
    ensures forall i :: 0 <= i < |xs| && xs[i].id == id ==>
              SubjectHasEdit(r[i], e) && SubjectsAgreeElsewhere(r[i], xs[i], e)
  {
    UpdateById(xs, id, IdOfSubject, s => ApplySubjectEdit(s, e))
  }

  /** Adding a subject under a fresh id and then removing that id restores
      the list. */
  lemma RemoveUndoesAddSubject(xs: seq<Subject>, newId: string)
    requires forall i :: 0 <= i < |xs| ==> xs[i].id != newId
    ensures RemoveSubject(AddSubject(xs, newId), newId) == xs
  {
    RemoveDistributes(xs, [NewSubject(newId)], newId, IdOfSubject);
    RemoveAbsentId(xs, newId, IdOfSubject);
  }

  // ---------------------------------------------------------------------------
  // Commitments
  // ---------------------------------------------------------------------------

  /** The entry `addCommitment` appends (line 470). */
  function NewCommitment(id: string): Commitment {
    Commitment(id, "", false, Morning)
  }

  /** `addCommitment`: appends exactly one default entry. */
  function AddCommitment(xs: seq<Commitment>, newId: string): (r: seq<Commitment>)
    ensures |r| == |xs| + 1 && r[..|xs|] == xs
    ensures r[|xs|].id == newId && r[|xs|].name == ""
    ensures !r[|xs|].recurring && r[|xs|].timeBlock == Morning
  {
    xs + [NewCommitment(newId)]
  }

  /** `removeCommitment`. */
  function RemoveCommitment(xs: seq<Commitment>, id: string): (r: seq<Commitment>)
    ensures forall c :: c in r <==> c in xs && c.id != id
  {
    RemoveById(xs, id, IdOfCommitment)
  }

  /** The edit applied to one commitment. */
  function ApplyCommitmentEdit(c: Commitment, e: CommitmentEdit): Commitment {
    match e
    case CommitmentId(v) => c.(id := v)
    case CommitmentName(v) => c.(name := v)
    case CommitmentRecurring(v) => c.(recurring := v)
    case CommitmentTimeBlock(v) => c.(timeBlock := v)
  }

  /** `a` carries the value `e` writes, in the field `e` names. */
  predicate CommitmentHasEdit(a: Commitment, e: CommitmentEdit) {
    match e
    case CommitmentId(v) => a.id == v
    case CommitmentName(v) => a.name == v
    case CommitmentRecurring(v) => a.recurring == v
    case CommitmentTimeBlock(v) => a.timeBlock == v
  }

  /** `a` and `b` agree on every field `e` does not name. */
  predicate CommitmentsAgreeElsewhere(a: Commitment, b: Commitment, e: CommitmentEdit) {
    && (e.CommitmentId? || a.id == b.id)
    && (e.CommitmentName? || a.name == b.name)
    && (e.CommitmentRecurring? || a.recurring == b.recurring)
    && (e.CommitmentTimeBlock? || a.timeBlock == b.timeBlock)
  }

  /** `updateCommitment(id, field, value)`. */
  function UpdateCommitment(xs: seq<Commitment>, id: string, e: CommitmentEdit): (r: seq<Commitment>)
    ensures |r| == |xs|
    ensures forall i :: 0 <= i < |xs| && xs[i].id != id ==> r[i] == xs[i]
    ensures forall i :: 0 <= i < |xs| && xs[i].id == id ==>
              CommitmentHasEdit(r[i], e) && CommitmentsAgreeElsewhere(r[i], xs[i], e)
  {
    UpdateById(xs, id, IdOfCommitment, c => ApplyCommitmentEdit(c, e))
  }

  /** Adding a commitment under a fresh id and then removing that id
      restores the list. */
  lemma RemoveUndoesAddCommitment(xs: seq<Commitment>, newId: string)
    requires forall i :: 0 <= i < |xs| ==> xs[i].id != newId
    ensures RemoveCommitment(AddCommitment(xs, newId), newId) == xs
  {
    RemoveDistributes(xs, [NewCommitment(newId)], newId, IdOfCommitment);
    RemoveAbsentId(xs, newId, IdOfCommitment);
  }
}

=== FILE: js_value.dfy ===
/** JavaScript values as the dashboard sees them after `JSON.parse` or inside an
    agent reply: the six JSON kinds plus `undefined`. Numbers are mathematical
    reals; NaN, -0 and floating-point rounding are not represented. */
module JsValue {

  datatype Js =
    | Undefined
    | Null
    | Bool(b: bool)
    | Num(n: real)
    | Str(s: string)
    | Arr(items: seq<Js>)
    | Obj(fields: map<string, Js>)

  /** JavaScript truthiness: `undefined`, `null`, `false`, `0` and `""` are falsy;
      every array and object, even an empty one, is truthy. */
  predicate Truthy(v: Js) {
    match v
    case Undefined => false
    case Null => false
    case Bool(b) => b
    case Num(n) => n != 0.0
    case Str(s) => s != ""
    case Arr(_) => true
    case Obj(_) => true
  }

  /** The values the `??` operator replaces. */
  predicate Nullish(v: Js) {
    v.Undefined? || v.Null?
  }

  /** `typeof v === 'object' && Object.keys(v).length === 0` for a truthy `v`:
      an array with no elements or an object with no own keys. */
  predicate EmptyContainer(v: Js) {
    (v.Arr? && |v.items| == 0) || (v.Obj? && |v.fields| == 0)
  }

  /** Optional-chained property read `v?.key` for the named (non-index,
      non-`length`) properties the dashboard reads: only an object can own one,
      and a missing property, like any read through `undefined`/`null`, is
      `undefined`. */
  function Get(v: Js, key: string): (r: Js)
    ensures v.Obj? && key in v.fields ==> r == v.fields[key]
    ensures !(v.Obj? && key in v.fields) ==> r == Undefined
  {
    if v.Obj? && key in v.fields then v.fields[key] else Undefined
  }

  /** `v ?? fallback`. */
  function OrElse(v: Js, fallback: Js): (r: Js)
    ensures !Nullish(r) || r == fallback
    ensures !Nullish(v) ==> r == v
  {
    if Nullish(v) then fallback else v
  }

  /** `Array.isArray(v) ? v : []`. */
  function ArrayOrEmpty(v: Js): (r: seq<Js>)
    ensures v.Arr? ==> r == v.items
    ensures !v.Arr? ==> r == []
  {
    if v.Arr? then v.items else []
  }

  /** Builds the object `{ key: v }`. */
  function Single(key: string, v: Js): Js {
    Obj(map[key := v])
  }

  /** A property value is strictly smaller than the object that owns it, so an
      object can never be its own property. */
  lemma OwnPropertyIsSmaller(key: string, v: Js)
    ensures Single(key, v) != v
  {
    var o := Single(key, v);
    assert o.fields[key] == v;
    assert v < o;
  }
}

=== FILE: optional.dfy ===
/** The optional-value type used throughout the model: `None` plays the part of
    JavaScript's `undefined`/`null` results (a failed lookup, a failed parse). */
module Optional {

  datatype Option<+T> = None | Some(value: T) {

    /** The wrapped value, or `default` when there is none. */
    function GetOr(default: T): T {
      match this
      case Some(v) => v
      case None => default
    }
  }
}

=== FILE: response_examples.dfy ===
/** What the normaliser makes of concrete replies. The parser stays abstract:
    each lemma only assumes what `JSON.parse` returns on the texts involved. */
module ResponseExamples {
  import opened Optional
  import opened JsValue
  import opened AgentResponse

  function ObjA(): Js { Single("a", Num(1.0)) }

  /** `{response: {result: '{"a":1}'}}` gives `{a: 1}`. */
  lemma DirectJsonText(host: JsonHost)
    requires host.parse("{\"a\":1}") == Some(ObjA())
    ensures ParseAgentResponse(host, WrapAsResult(Str("{\"a\":1}"))) == ObjA()
  {
    WrappedResult(host, Str("{\"a\":1}"));
  }

  /** Prose around a JSON object, as in `'Here is your plan: {"a":1} thanks'`:
      when the text before the object holds no `{` and the text after it no
      `}`, the object's text is cut out and parsed. */
  lemma ProseAroundObject(host: JsonHost, before: string, body: string, after: string, v: Js)
    requires |body| >= 2 && body[0] == '{' && body[|body| - 1] == '}'
    requires '{' !in before && '}' !in after
    requires host.parse(before + body + after) == None
    requires host.parse(body) == Some(v) && !Unusable(v)
    ensures ParseAgentResponse(host, WrapAsResult(Str(before + body + after))) == v
  {
    var s := before + body + after;
    var i := |before|;
    var j := |before| + |body| - 1;
    assert s[..i] == before;
    assert s[j + 1..] == after;
    assert s[i..j + 1] == body;
    BraceSpanIsDetermined(s, i, j);
    var w := WrapAsResult(Str(s));
    assert Get(Get(w, "response"), "result") == Str(s);
    EmbeddedJsonIsExtracted(host, w, s, v);
  }

  /** A `response` object whose `result` is the empty object `'{}'` is itself
      the answer: step 2 returns the whole `response` object, which is truthy. */
  lemma EmptyResultYieldsResponseObject(host: JsonHost)
    requires host.parse("{}") == Some(Obj(map[]))
    ensures ParseAgentResponse(host, WrapAsResult(Str("{}"))) == Single("result", Str("{}"))
  {
    WrappedResult(host, Str("{}"));
  }

  /** A `response` given as JSON text (so `response.result` is absent) is parsed. */
  lemma ResponseText(host: JsonHost)
    requires host.parse("{\"b\":2}") == Some(Single("b", Num(2.0)))
    ensures ParseAgentResponse(host, Single("response", Str("{\"b\":2}"))) == Single("b", Num(2.0))
  {
    var w := Single("response", Str("{\"b\":2}"));
    assert Get(Get(w, "response"), "result") == Undefined;
    assert Secondary(host, w) == Single("b", Num(2.0));
  }

  /** `{response: {result: 'not json'}, raw_response: '{"c":3}'}` gives the text
      `'not json'`: it holds no brace span, is truthy, and so `raw_response` is
      never read. */
  lemma ProseSuppressesRawResponse(host: JsonHost)
    requires host.parse("not json") == None
    ensures var reply := Obj(map["response" := Single("result", Str("not json")),
                                 "raw_response" := Str("{\"c\":3}")]);
            ParseAgentResponse(host, reply) == Str("not json")
  {
    var reply := Obj(map["response" := Single("result", Str("not json")),
                         "raw_response" := Str("{\"c\":3}")]);
    assert Get(Get(reply, "response"), "result") == Str("not json");
    assert BraceSpan("not json").None? by {
      assert forall k :: 0 <= k < |"not json"| ==> "not json"[k] != '{';
      BraceSpanFoundIffPair("not json");
    }
    UnparsableTextIsKept(host, reply);
  }

  /** With nothing usable anywhere the result is falsy (the "no data" case). */
  lemma NothingUsable(host: JsonHost)
    ensures !Truthy(ParseAgentResponse(host, Obj(map[])))
  {
    assert Get(Obj(map[]), "response") == Undefined;
  }
}

=== FILE: schedules.dfy ===
/** Which background schedule the settings screen manages
    (app/page.tsx:1181): the one with the configured schedule id, else the
    first one driving the goals-tracker agent, else the first schedule. */
module Schedules {
  import opened Optional
  import Search

  /** `SCHEDULE_ID` (line 63). */
  const ScheduleId: string := "69996287399dfadeac37e2c6"

  /** `DEADLINE_GOALS_TRACKER_ID` (line 62). */
  const GoalsTrackerId: string := "6999627f2361782dde9da339"

  /** The fields of a schedule record the selection reads. */
  datatype Schedule = Schedule(id: string, agentId: string)

  predicate HasScheduleId(s: Schedule) { s.id == ScheduleId }

  predicate RunsGoalsTracker(s: Schedule) { s.agentId == GoalsTrackerId }

  /** `targetSchedule`. Each `find` yields a schedule object, which is
      truthy, so `||` stops at the first one found. */
  function TargetSchedule(schedules: seq<Schedule>): (r: Option<Schedule>)
    ensures r.None? <==> |schedules| == 0
    ensures r.Some? ==> r.value in schedules
    ensures forall i :: 0 <= i < |schedules| && HasScheduleId(schedules[i])
                        && (forall k :: 0 <= k < i ==> !HasScheduleId(schedules[k]))
                        ==> r == Some(schedules[i])
    ensures forall i :: 0 <= i < |schedules| && RunsGoalsTracker(schedules[i])
                        && (forall k :: 0 <= k < |schedules| ==> !HasScheduleId(schedules[k]))
                        && (forall k :: 0 <= k < i ==> !RunsGoalsTracker(schedules[k]))
                        ==> r == Some(schedules[i])
    ensures |schedules| > 0
            && (forall k :: 0 <= k < |schedules| ==> !HasScheduleId(schedules[k]) && !RunsGoalsTracker(schedules[k]))
            ==> r == Some(schedules[0])
  {
    match Search.Find(schedules, HasScheduleId)
    case Some(s) => Some(s)
    case None =>
      match Search.Find(schedules, RunsGoalsTracker)
      case Some(s) => Some(s)
      case None => if |schedules| > 0 then Some(schedules[0]) else None
  }

  /** The configured id beats every goals-tracker match, wherever the two
      stand: the chosen schedule carries the configured id exactly when some
      schedule does. */
  lemma {:induction false} IdBeatsAgent(schedules: seq<Schedule>)
    ensures (exists i :: 0 <= i < |schedules| && HasScheduleId(schedules[i]))
            <==> TargetSchedule(schedules).Some? && HasScheduleId(TargetSchedule(schedules).value)
  {
    var i := Search.FindIndex(schedules, HasScheduleId);
    if i >= 0 {
      assert TargetSchedule(schedules) == Some(schedules[i]);
    }
  }
}

=== FILE: search.dfy ===
/** Linear searches over sequences with the results JavaScript's
    `Array.prototype.findIndex`, `find`, `indexOf` and `lastIndexOf` give:
    a position, or -1 / `None` when nothing matches. */
module Search {
  import opened Optional

  /** `xs.findIndex(p)`: the first position whose element satisfies `p`, or -1. */
  function FindIndex<T>(xs: seq<T>, p: T -> bool): (r: int)
    ensures -1 <= r < |xs|
    ensures r >= 0 ==> p(xs[r])
    ensures r >= 0 ==> forall j :: 0 <= j < r ==> !p(xs[j])
    ensures r == -1 <==> forall j :: 0 <= j < |xs| ==> !p(xs[j])
  {
    if |xs| == 0 then -1
    else if p(xs[0]) then 0
    else
      var k := FindIndex(xs[1..], p);
      assert forall j :: 1 <= j < |xs| ==> xs[j] == xs[1..][j - 1];
      if k < 0 then -1 else k + 1
  }

  /** `xs.find(p)`: the first element satisfying `p`, if any. */
  function Find<T>(xs: seq<T>, p: T -> bool): (r: Option<T>)
    ensures r.Some? ==> exists i :: 0 <= i < |xs| && xs[i] == r.value && p(xs[i]) && forall j :: 0 <= j < i ==> !p(xs[j])
    ensures r.None? <==> forall j :: 0 <= j < |xs| ==> !p(xs[j])
  {
    var i := FindIndex(xs, p);
    if i < 0 then None else Some(xs[i])
  }

  /** `xs.indexOf(x)`: the first position holding `x`, or -1. */
  function IndexOf<T(==)>(xs: seq<T>, x: T): (r: int)
    ensures -1 <= r < |xs|
    ensures r >= 0 ==> xs[r] == x && x !in xs[..r]
    ensures r == -1 <==> x !in xs
  {
    if |xs| == 0 then -1
    else if xs[0] == x then 0
    else
      var k := IndexOf(xs[1..], x);
      assert xs == [xs[0]] + xs[1..];
      if k < 0 then -1
      else
        assert xs[..k + 1] == [xs[0]] + xs[1..][..k];
        k + 1
  }

  /** `xs.lastIndexOf(x)`: the last position holding `x`, or -1. */
  function LastIndexOf<T(==)>(xs: seq<T>, x: T): (r: int)
    ensures -1 <= r < |xs|
    ensures r >= 0 ==> xs[r] == x && x !in xs[r + 1..]
    ensures r == -1 <==> x !in xs
  {
    if |xs| == 0 then -1
    else if xs[|xs| - 1] == x then |xs| - 1
    else
      var k := LastIndexOf(xs[..|xs| - 1], x);
      assert xs == xs[..|xs| - 1] + [xs[|xs| - 1]];
      k
  }
}

=== FILE: urgency.dfy ===
/** Urgency labels on the goals screen: the `UrgencyBadge` colour and label
    (app/page.tsx:396-404) and the deadline ordering (app/page.tsx:955-958).
    Both compare the upper-cased label against CRITICAL, URGENT and MODERATE
    (the sort also knows RELAXED); anything else is the lowest priority. */
module Urgency {
  import opened Optional

  /** `String.prototype.toUpperCase` on one character: ASCII letters, plus the
      characters whose upper case is made of ASCII letters (dotless i, long s,
      sharp s and the Latin ligatures U+FB00-U+FB06). Every other character is
      kept as it is. */
  function UpperChar(c: char): string {
    if 'a' <= c <= 'z' then [(c as int - 32) as char]
    else if c == '\U{0131}' then "I"
    else if c == '\U{017F}' then "S"
    else if c == '\U{00DF}' then "SS"
    else if c == '\U{FB00}' then "FF"
    else if c == '\U{FB01}' then "FI"
    else if c == '\U{FB02}' then "FL"
    else if c == '\U{FB03}' then "FFI"
    else if c == '\U{FB04}' then "FFL"
    else if c == '\U{FB05}' || c == '\U{FB06}' then "ST"
    else [c]
  }

  /** `s.toUpperCase()`. */
  function ToUpper(s: string): (r: string)
    ensures r == "" <==> s == ""
  {
    if |s| == 0 then "" else UpperChar(s[0]) + ToUpper(s[1..])
  }

  /** Upper-cased text holds no lower-case ASCII letter. */
  lemma {:induction false} ToUpperHasNoLowerCase(s: string)
    ensures forall i :: 0 <= i < |ToUpper(s)| ==> !('a' <= ToUpper(s)[i] <= 'z')
  {
    if |s| > 0 {
      ToUpperHasNoLowerCase(s[1..]);
      var h := UpperChar(s[0]);
      var t := ToUpper(s[1..]);
      assert forall i :: 0 <= i < |h| ==> !('a' <= h[i] <= 'z');
      assert forall i :: |h| <= i < |h| + |t| ==> (h + t)[i] == t[i - |h|];
    }
  }

  /** Upper-casing works character by character. */
  lemma {:induction false} ToUpperAppend(a: string, b: string)
    ensures ToUpper(a + b) == ToUpper(a) + ToUpper(b)
  {
    if |a| == 0 {
      assert a + b == b;
    } else {
      assert (a + b)[1..] == a[1..] + b;
      ToUpperAppend(a[1..], b);
    }
  }

  /** Upper-casing an upper-cased label changes nothing more. */
  lemma {:induction false} ToUpperIdempotent(s: string)
    ensures ToUpper(ToUpper(s)) == ToUpper(s)
  {
    if |s| > 0 {
      var head := UpperChar(s[0]);
      assert ToUpper(head) == head by {
        if |head| == 1 {
          assert ToUpper(head) == UpperChar(head[0]) + ToUpper(head[1..]);
        } else {
          assert head[0] in "FS" && head[1..] == head[1..];
          ToUpperAppend([head[0]], head[1..]);
          assert head == [head[0]] + head[1..];
          if |head| == 3 {
            ToUpperAppend([head[1]], [head[2]]);
            assert head[1..] == [head[1]] + [head[2]];
          }
        }
      }
      ToUpperAppend(head, ToUpper(s[1..]));
      ToUpperIdempotent(s[1..]);
    }
  }

  /** The colour classes the badge picks from. */
  datatype Tone = Red | Amber | Yellow | Emerald

  /** The badge's colour (lines 397-402). */
  function BadgeTone(urgency: Option<string>): (r: Tone)
    ensures r == Red <==> ToUpper(urgency.GetOr("")) == "CRITICAL"
    ensures r == Amber <==> ToUpper(urgency.GetOr("")) == "URGENT"
    ensures r == Yellow <==> ToUpper(urgency.GetOr("")) == "MODERATE"
    ensures r == Emerald <==> ToUpper(urgency.GetOr("")) !in {"CRITICAL", "URGENT", "MODERATE"}
  {
    var u := ToUpper(urgency.GetOr(""));
    if u == "CRITICAL" then Red
    else if u == "URGENT" then Amber
    else if u == "MODERATE" then Yellow
    else Emerald
  }

  /** The badge's text (lines 396 and 403): the upper-cased label, or `N/A`
      when there is none or it is empty. */
  function BadgeLabel(urgency: Option<string>): (r: string)
    ensures r != ""
    ensures urgency.GetOr("") == "" ==> r == "N/A"
    ensures urgency.Some? && urgency.value != "" ==> r == ToUpper(urgency.value)
  {
    var u := ToUpper(urgency.GetOr(""));
    if u == "" then "N/A" else u
  }

  /** The `urgencyOrder` record of line 956. */
  const UrgencyOrder: map<string, nat> := map["CRITICAL" := 0, "URGENT" := 1, "MODERATE" := 2, "RELAXED" := 3]

  /** `urgencyOrder[urgency?.toUpperCase()] ?? 4`. */
  function UrgencyRank(urgency: Option<string>): (r: nat)
    ensures r <= 4
  {
    match urgency
    case None => 4
    case Some(u) =>
      var key := ToUpper(u);
      if key in UrgencyOrder then UrgencyOrder[key] else 4
  }

  /** The badge and the sort agree: red is rank 0, amber rank 1, yellow
      rank 2, and emerald covers RELAXED and every unknown or missing label. */
  lemma BadgeAgreesWithRank(urgency: Option<string>)
    ensures BadgeTone(urgency) == Red <==> UrgencyRank(urgency) == 0
    ensures BadgeTone(urgency) == Amber <==> UrgencyRank(urgency) == 1
    ensures BadgeTone(urgency) == Yellow <==> UrgencyRank(urgency) == 2
    ensures BadgeTone(urgency) == Emerald <==> UrgencyRank(urgency) >= 3
  {
    assert ToUpper("") == "";
  }

  /** On ASCII text, upper-casing maps each lower-case letter to its capital. */
  lemma {:induction false} ToUpperAscii(s: string)
    requires forall i :: 0 <= i < |s| ==> s[i] < 128 as char
    ensures ToUpper(s) == seq(|s|, i requires 0 <= i < |s| => if 'a' <= s[i] <= 'z' then (s[i] as int - 32) as char else s[i])
  {
    if |s| > 0 {
      ToUpperAscii(s[1..]);
    }
  }

  /** Labels are matched whatever their case: upper-casing a label first
      changes neither its rank nor its badge. */
  lemma ClassificationIgnoresCase(u: string)
    ensures UrgencyRank(Some(ToUpper(u))) == UrgencyRank(Some(u))
    ensures BadgeTone(Some(ToUpper(u))) == BadgeTone(Some(u))
  {
    ToUpperIdempotent(u);
  }

  lemma UpperCritical()
    ensures ToUpper("critical") == "CRITICAL"
  {
    ToUpperAscii("critical");
  }

  /** A lower-case `critical` is the most urgent label. */
  lemma LowerCaseCritical()
    ensures UrgencyRank(Some("critical")) == 0
    ensures BadgeTone(Some("critical")) == Red
  {
    UpperCritical();
  }

  /** Any label outside the `urgencyOrder` record, whatever its case, ranks
      last, together with a missing label. */
  lemma UnknownLabelRanksLast(u: string)
    requires ToUpper(u) !in {"CRITICAL", "URGENT", "MODERATE", "RELAXED"}
    ensures UrgencyRank(Some(u)) == 4
    ensures UrgencyRank(None) == 4
  {
  }

  /** RELAXED, in any case, ranks 3: after the three urgent groups and ahead
      of every unknown label. */
  lemma RelaxedRanksThird(u: string)
    requires ToUpper(u) == "RELAXED"
    ensures UrgencyRank(Some(u)) == 3
  {
  }

  // ---------------------------------------------------------------------------
  // Deadline ordering
  // ---------------------------------------------------------------------------

  /** One entry of `upcoming_deadlines`. */
  datatype Deadline = Deadline(
    subject: string,
    deadline: string,
    daysRemaining: real,
    urgency: Option<string>,
    actionNeeded: string,
    completionPercentage: real)

  function Rank(d: Deadline): nat {
    UrgencyRank(d.urgency)
  }

  ghost predicate SortedByRank(s: seq<Deadline>) {
    forall i, j :: 0 <= i < j < |s| ==> Rank(s[i]) <= Rank(s[j])
  }

  /** The entries of rank `k`, in their order in `s`. */
  function OfRank(s: seq<Deadline>, k: nat): (r: seq<Deadline>)
    ensures |r| <= |s|
  {
    if |s| == 0 then []
    else (if Rank(s[0]) == k then [s[0]] else []) + OfRank(s[1..], k)
  }

  /** Places `x` in front of the first entry whose rank is not smaller. */
  function Insert(x: Deadline, s: seq<Deadline>): (r: seq<Deadline>)
    ensures multiset(r) == multiset(s) + multiset{x}
  {
    if |s| == 0 then [x]
    else if Rank(x) <= Rank(s[0]) then [x] + s
    else
      assert s == [s[0]] + s[1..];
      [s[0]] + Insert(x, s[1..])
  }

  /** Insertion keeps a rank-sorted list sorted. */
  lemma {:induction false} InsertKeepsSorted(x: Deadline, s: seq<Deadline>)
    requires SortedByRank(s)
    ensures SortedByRank(Insert(x, s))
  {
    if |s| > 0 && Rank(s[0]) < Rank(x) {
      var rest := Insert(x, s[1..]);
      InsertKeepsSorted(x, s[1..]);
      forall i | 0 <= i < |rest| ensures Rank(s[0]) <= Rank(rest[i]) {
        assert rest[i] in multiset(rest);
        assert rest[i] == x || rest[i] in multiset(s[1..]);
      }
    }
  }

  /** `[...deadlines].sort(byUrgency)`: a stable sort (as
      `Array.prototype.sort` is) by urgency rank. */
  function SortByUrgency(xs: seq<Deadline>): (r: seq<Deadline>)
    ensures multiset(r) == multiset(xs)
    ensures SortedByRank(r)
  {
    if |xs| == 0 then []
    else
      assert xs == [xs[0]] + xs[1..];
      InsertKeepsSorted(xs[0], SortByUrgency(xs[1..]));
      Insert(xs[0], SortByUrgency(xs[1..]))
  }

  lemma {:induction false} OfRankAppend(a: seq<Deadline>, b: seq<Deadline>, k: nat)
    ensures OfRank(a + b, k) == OfRank(a, k) + OfRank(b, k)
  {
    if |a| == 0 {
      assert a + b == b;
    } else {
      assert (a + b)[1..] == a[1..] + b;
      OfRankAppend(a[1..], b, k);
    }
  }

  /** Inserting `x` adds it to the front of its own rank group and leaves
      every other group alone. */
  lemma {:induction false} OfRankInsert(x: Deadline, s: seq<Deadline>, k: nat)
    ensures OfRank(Insert(x, s), k) == (if Rank(x) == k then [x] else []) + OfRank(s, k)
  {
    var xk := if Rank(x) == k then [x] else [];
    if |s| == 0 {
      assert OfRank([x], k) == xk + OfRank([x][1..], k);
    } else if Rank(x) <= Rank(s[0]) {
      assert ([x] + s)[1..] == s;
      assert OfRank([x] + s, k) == xk + OfRank(s, k);
    } else {
      var s0 := if Rank(s[0]) == k then [s[0]] else [];
      var rest := Insert(x, s[1..]);
      OfRankInsert(x, s[1..], k);
      assert ([s[0]] + rest)[1..] == rest;
      assert OfRank([s[0]] + rest, k) == s0 + OfRank(rest, k);
      assert OfRank(s, k) == s0 + OfRank(s[1..], k);
      assert Rank(x) == k ==> s0 == [];
    }
  }

  /** Stability: entries of equal urgency keep their original relative order. */
  lemma {:induction false} SortIsStable(xs: seq<Deadline>, k: nat)
    ensures OfRank(SortByUrgency(xs), k) == OfRank(xs, k)
  {
    if |xs| > 0 {
      SortIsStable(xs[1..], k);
      OfRankInsert(xs[0], SortByUrgency(xs[1..]), k);
    }
  }

  /** The rank groups from `k` up to 4, concatenated in rank order. */
  function GroupsFrom(s: seq<Deadline>, k: nat): seq<Deadline>
    decreases 5 - k
  {
    if k > 4 then [] else OfRank(s, k) + GroupsFrom(s, k + 1)
  }

  /** Urgency groups in rank order: the reference ordering. */
  function UrgencyGroups(s: seq<Deadline>): seq<Deadline> {
    GroupsFrom(s, 0)
  }

  lemma {:induction false} GroupsFromSameGroups(a: seq<Deadline>, b: seq<Deadline>, k: nat)
    requires forall j: nat :: OfRank(a, j) == OfRank(b, j)
    ensures GroupsFrom(a, k) == GroupsFrom(b, k)
    decreases 5 - k
  {
    if k <= 4 {
      GroupsFromSameGroups(a, b, k + 1);
    }
  }

  /** Dropping a head of rank below `k` does not change the groups from `k`. */
  lemma {:induction false} GroupsFromDropLower(s: seq<Deadline>, k: nat)
    requires |s| > 0 && Rank(s[0]) < k
    ensures GroupsFrom(s, k) == GroupsFrom(s[1..], k)
    decreases 5 - k
  {
    if k <= 4 {
      GroupsFromDropLower(s, k + 1);
      assert OfRank(s, k) == OfRank(s[1..], k);
      assert GroupsFrom(s, k) == OfRank(s, k) + GroupsFrom(s, k + 1);
    }
  }

  lemma {:induction false} GroupsFromEmpty(k: nat)
    ensures GroupsFrom([], k) == []
    decreases 5 - k
  {
    if k <= 4 {
      GroupsFromEmpty(k + 1);
    }
  }

  /** A sorted list whose ranks are all at least `k` is its own groups from `k`. */
  lemma {:induction false} SortedIsGroups(s: seq<Deadline>, k: nat)
    requires SortedByRank(s)
    requires forall i :: 0 <= i < |s| ==> k <= Rank(s[i])
    ensures GroupsFrom(s, k) == s
    decreases |s|, 5 - k
  {
    if |s| == 0 {
      GroupsFromEmpty(k);
    } else if k < Rank(s[0]) {
      assert OfRank(s, k) == [] by {
        OfRankNone(s, k);
      }
      SortedIsGroups(s, k + 1);
    } else {
      var t := s[1..];
      assert forall i :: 0 <= i < |t| ==> t[i] == s[i + 1];
      SortedIsGroups(t, k);
      GroupsFromHead(s, k);
      assert s == [s[0]] + t;
    }
  }

  /** A head of rank `k` leads the groups from `k`, ahead of the rest's. */
  lemma GroupsFromHead(s: seq<Deadline>, k: nat)
    requires |s| > 0 && Rank(s[0]) == k
    ensures GroupsFrom(s, k) == [s[0]] + GroupsFrom(s[1..], k)
  {
    var t := s[1..];
    assert OfRank(s, k) == [s[0]] + OfRank(t, k);
    GroupsFromDropLower(s, k + 1);
    assert GroupsFrom(s, k) == OfRank(s, k) + GroupsFrom(s, k + 1);
    assert GroupsFrom(t, k) == OfRank(t, k) + GroupsFrom(t, k + 1);
  }

  lemma {:induction false} OfRankNone(s: seq<Deadline>, k: nat)
    requires forall i :: 0 <= i < |s| ==> Rank(s[i]) != k
    ensures OfRank(s, k) == []
  {
    if |s| > 0 {
      OfRankNone(s[1..], k);
    }
  }

  /** The sort equals the reference ordering: all CRITICAL entries, then
      URGENT, MODERATE, RELAXED and finally every other label, each group
      in its original order. */
  lemma SortIsUrgencyGroups(xs: seq<Deadline>)
    ensures SortByUrgency(xs) == UrgencyGroups(xs)
  {
    var r := SortByUrgency(xs);
    SortedIsGroups(r, 0);
    forall j: nat ensures OfRank(r, j) == OfRank(xs, j) {
      SortIsStable(xs, j);
    }
    GroupsFromSameGroups(r, xs, 0);
  }
}

=== FILE: widgets.dfy ===
/** Display values computed by small dashboard widgets: the `ProgressRing`
    percentage (app/page.tsx:366), the `DifficultyDots` level and dots
    (app/page.tsx:385-393) and the subject colour (app/page.tsx:185-188).
    A number prop that is `null`/`undefined` is `None`. */
module Widgets {
  import opened Optional
  import Search

  /** `value || 0` for a number prop: missing values and `0` become `0`. */
  function OrZero(value: Option<real>): real {
    match value
    case None => 0.0
    case Some(x) => if x == 0.0 then 0.0 else x
  }

  /** `Math.min(hi, Math.max(lo, x))`. */
  function Clamp(lo: real, hi: real, x: real): real {
    var atLeast := if x > lo then x else lo;
    if atLeast < hi then atLeast else hi
  }

  /** The percentage shown inside `ProgressRing`. */
  function ProgressPercent(value: Option<real>): (r: real)
    ensures 0.0 <= r <= 100.0
    ensures value.None? ==> r == 0.0
    ensures value.Some? && 0.0 <= value.value <= 100.0 ==> r == value.value
    ensures value.Some? && value.value > 100.0 ==> r == 100.0
    ensures value.Some? && value.value < 0.0 ==> r == 0.0
  {
    Clamp(0.0, 100.0, OrZero(value))
  }

  /** Clamping is idempotent: a shown percentage shows as itself. */
  lemma ProgressPercentIdempotent(value: Option<real>)
    ensures ProgressPercent(Some(ProgressPercent(value))) == ProgressPercent(value)
  {
  }

  /** `safeLevel` of `DifficultyDots`. */
  function SafeLevel(level: Option<real>): (r: real)
    ensures 0.0 <= r <= 5.0
    ensures level.None? ==> r == 0.0
    ensures level.Some? && 0.0 <= level.value <= 5.0 ==> r == level.value
    ensures level.Some? && level.value > 5.0 ==> r == 5.0
    ensures level.Some? && level.value < 0.0 ==> r == 0.0
  {
    Clamp(0.0, 5.0, OrZero(level))
  }

  /** Whether each of dots 1..5 is filled (`dot <= safeLevel`); dot `i + 1`
      is at index `i`. */
  function Dots(level: Option<real>): (r: seq<bool>)
    ensures |r| == 5
    ensures forall i :: 0 <= i < 5 ==> (r[i] <==> (i + 1) as real <= SafeLevel(level))
  {
    seq(5, i requires 0 <= i < 5 => (i + 1) as real <= SafeLevel(level))
  }

  function CountFilled(s: seq<bool>): nat {
    if |s| == 0 then 0 else (if s[|s| - 1] then 1 else 0) + CountFilled(s[..|s| - 1])
  }

  /** The dots `1..n` filled up to `x`: exactly `min(n, floor x)` of them. */
  lemma {:induction false} CountFilledUpTo(n: nat, x: real)
    requires 0.0 <= x
    ensures var dots := seq(n, i requires 0 <= i < n => (i + 1) as real <= x);
            CountFilled(dots) == if n <= x.Floor then n else x.Floor
  {
    if n > 0 {
      var dots := seq(n, i requires 0 <= i < n => (i + 1) as real <= x);
      assert dots[..n - 1] == seq(n - 1, i requires 0 <= i < n - 1 => (i + 1) as real <= x);
      CountFilledUpTo(n - 1, x);
      assert dots[n - 1] <==> n <= x.Floor;
    }
  }

  /** The number of filled dots is the level rounded down, and the filled
      dots come first. */
  lemma FilledDotsMatchLevel(level: Option<real>)
    ensures CountFilled(Dots(level)) == SafeLevel(level).Floor
    ensures forall i, j :: 0 <= i < j < 5 && Dots(level)[j] ==> Dots(level)[i]
  {
    CountFilledUpTo(5, SafeLevel(level));
    assert Dots(level) == seq(5, i requires 0 <= i < 5 => (i + 1) as real <= SafeLevel(level));
  }

  /** `SUBJECT_COLORS` (lines 65-71). */
  const SubjectColors: seq<string> := [
    "hsl(160, 75%, 50%)",
    "hsl(142, 65%, 45%)",
    "hsl(180, 55%, 50%)",
    "hsl(120, 50%, 50%)",
    "hsl(200, 50%, 55%)"]

  /** `getSubjectColor(subject, allSubjects)`: the palette entry at the
      subject's first position modulo 5, or entry 0 for an unknown subject. */
  function SubjectColor(subject: string, allSubjects: seq<string>): (r: string)
    ensures r in SubjectColors
    ensures forall i :: 0 <= i < |allSubjects| && allSubjects[i] == subject
                        && (forall k :: 0 <= k < i ==> allSubjects[k] != subject)
                        ==> r == SubjectColors[i % 5]
    ensures subject !in allSubjects ==> r == SubjectColors[0]
  {
    var idx := Search.IndexOf(allSubjects, subject);
    assert idx >= 0 ==> forall k :: 0 <= k < idx ==> allSubjects[k] != subject by {
      if idx >= 0 {
        assert forall k :: 0 <= k < idx ==> allSubjects[k] == allSubjects[..idx][k];
      }
    }
    SubjectColors[if idx >= 0 then idx % |SubjectColors| else 0]
  }

  /** The five palette entries are different colours: their hues differ. */
  lemma PaletteEntriesDiffer()
    ensures forall a, b :: 0 <= a < b < |SubjectColors| ==> SubjectColors[a] != SubjectColors[b]
  {
    assert SubjectColors[0][4..7] == "160";
    assert SubjectColors[1][4..7] == "142";
    assert SubjectColors[2][4..7] == "180";
    assert SubjectColors[3][4..7] == "120";
    assert SubjectColors[4][4..7] == "200";
  }

  /** The first five distinct subjects get five different colours. */
  lemma FirstFiveSubjectsDiffer(allSubjects: seq<string>, i: nat, j: nat)
    requires i < j < |allSubjects| && j < 5
    requires forall a, b :: 0 <= a < b < |allSubjects| ==> allSubjects[a] != allSubjects[b]
    ensures SubjectColor(allSubjects[i], allSubjects) != SubjectColor(allSubjects[j], allSubjects)
  {
    ColorOfFirstOccurrence(allSubjects, i);
    ColorOfFirstOccurrence(allSubjects, j);
    PaletteEntriesDiffer();
  }

  lemma ColorOfFirstOccurrence(allSubjects: seq<string>, i: nat)
    requires i < |allSubjects| && i < 5
    requires forall k :: 0 <= k < i ==> allSubjects[k] != allSubjects[i]
    ensures SubjectColor(allSubjects[i], allSubjects) == SubjectColors[i]
  {
    assert i % 5 == i;
    var r := SubjectColor(allSubjects[i], allSubjects);
    assert r == SubjectColors[i % 5];
  }
}
